=== FILE: README.md ===
# terminal-setup: the `.zshrc` patcher and backup selection

`terminal-setup.py` backs up the shell configuration files and restores them.
It also installs Zsh with Oh My Zsh and then patches `~/.zshrc`. This
project models two parts of the script in Dafny and proves properties about them.

- **The `.zshrc` patcher** (`set_zsh_theme_and_plugins`).
  - Every line that starts with `ZSH_THEME=` becomes `ZSH_THEME="robbyrussell"`.
  - Every line that starts with `plugins=` becomes the fixed plugin list.
  - A missing theme line is inserted at the top. A missing plugins line is
    inserted at index 1.
  - The line `source $ZSH/oh-my-zsh.sh`, preceded by a newline, is appended
    when no line the patcher keeps verbatim contains it. A directive on a
    `ZSH_THEME=` or `plugins=` line is overwritten before the test, so it
    does not count.
  - The patch is modelled as a pure function `Zshrc.Patch` on the lines read.
    `Zshrc.SetThemeAndPlugins` is the source's loop-and-flags algorithm, and it
    is proved equal to `Patch`.
  - `ZshrcFile` lifts the patch to file text:
    - A missing file reads as no lines.
    - Reading applies Python's universal-newline translation (`Text.Normalize`)
      and cuts the text after every newline (`Text.SplitLines`).
    - Writing concatenates the lines (`Text.JoinLines`).
- **Backup selection** (`list_backups`, `restore_configs`).
  - The backup folder's names are sorted in descending Python string order.
    A missing folder gives no backups.
  - The number the user types, `n`, selects `backups[n - 1]` with Python's
    indexing, so `0` and negative numbers count from the end.
  - An index outside `[-len, len)` is an invalid selection.
  - `Timestamps` proves that names made by `strftime("%Y%m%d_%H%M%S")`
    compare as strings the way the local wall-clock readings they were made
    from compare. So the descending listing puts first the backup with the
    latest reading. That is the newest backup only while the local clock
    never goes back.

Modules:
- `Wrappers`: `Option`.
- `Text`: Python string and text-file primitives.
- `Zshrc`: the patcher's operations.
- `ZshrcProperties`: lemmas about the line-level patch.
- `ZshrcFile`: the file-level round trip.
- `Backups`: Python string order, the descending sort, indexing and the
  restore decision.
- `Timestamps`: backup names.

The model follows the code in three places where the code does less than one
might expect:
- Each setting line is not guaranteed to appear exactly once. Several
  `ZSH_THEME=` lines (or `plugins=` lines) stay several canonical lines.
  `ZshrcProperties.PatchSettingLines` gives the exact count.
- The plugins line is not always placed right after the theme line, although
  the comment at terminal-setup.py:85 says "after theme". When it is missing,
  it always becomes element 1 of the list. In a file whose first line is not a
  setting line, every theme line found further down ends up after the
  inserted plugins line (`ZshrcProperties.PatchThemeFoundLater`).
- The appended element is `"\nsource $ZSH/oh-my-zsh.sh\n"`. Its leading
  newline leaves a blank line unless the line before it has no newline. That
  happens only when the file's last line is kept verbatim and has no newline
  (a missing or empty file, or a last setting line, ends in a canonical line
  that has one). Then the newline only ends that line
  (`ZshrcFile.ResplitAfterUnterminated`).

## Model

| member | source | states |
|---|---|---|
| Text.StartsWith | terminal-setup.py:72-75 | Python's `str.startswith`: the string's first `len(prefix)` characters are the prefix. |
| Text.Contains | terminal-setup.py:89 | Python's `sub in s`: the substring occurs at some position. A string that starts with `sub` contains it, and a contained substring is no longer than the string. |
| Text.SplitLines | terminal-setup.py:70-71 | The lines `for line in f` yields from the text read: cut after every newline, with a last piece without newline as a line of its own. `Text.JoinSplit` and `Text.SplitJoin` relate it to `JoinLines`. |
| Text.JoinLines | terminal-setup.py:92-93 | `f.writelines(lines)` writes the elements one after another with nothing added, so the first element starts the text and no element is longer than the text. |
| Zshrc.Canonical | terminal-setup.py:72-79 | The body of the read loop: a line becomes the canonical theme line, the canonical plugins line, or stays itself, and nothing else. |
| Zshrc.WithTheme | terminal-setup.py:80-82 | The list after the theme insertion is one longer exactly when no theme line was read, and then starts with the theme line. |
| Zshrc.PluginsIndex | terminal-setup.py:86 | `insert_idx` is always 1: either a theme line was read, or one was just inserted at index 0. |
| Zshrc.WithPlugins | terminal-setup.py:83-87 | The list after the plugins insertion is one longer exactly when no plugins line was read, and then holds the plugins line at index 1. |
| Zshrc.Patch | terminal-setup.py:64-90 | The lines written back: the lines after both insertions, unchanged and in order, followed by nothing or by exactly the source line, so the output is between zero and three lines longer than the input. |
| Zshrc.SetThemeAndPlugins | terminal-setup.py:64-90 | The read loop with its two flags, the two `list.insert` calls and the `any(...)` test together compute exactly the patched line list `Patch`. |
| Zshrc.ReadSettings | terminal-setup.py:66-79 | After the read loop, `theme_set` holds iff some line starts with `ZSH_THEME=`, and `plugins_set` iff some line starts with `plugins=`. The list holds the lines rewritten position by position. |
| Zshrc.MapLines | terminal-setup.py:71-79 | Each line read stays in place. It becomes the canonical theme line if it starts with `ZSH_THEME=`, otherwise the canonical plugins line if it starts with `plugins=`, and otherwise stays unchanged. |
| Zshrc.MapLinesUnique | terminal-setup.py:71-79 | These three position-wise cases fully determine the list the read loop builds. |
| Zshrc.CanonicalKind | terminal-setup.py:72-79 | Rewriting a line keeps its kind (theme, plugins or other). Rewriting it again changes nothing, and other lines are left as they are. |
| Zshrc.PyInsert | terminal-setup.py:82-87 | `list.insert(i, x)` grows the list by one and puts `x` at `i`, or at the end when `i` is past it. Everything before stays, and everything after shifts by one. |
| Zshrc.AnySourced | terminal-setup.py:89 | The short-circuiting `any(...)` loop answers whether some line contains `source $ZSH/oh-my-zsh.sh`. |
| ZshrcProperties.PatchLayout | terminal-setup.py:80-87 | A missing theme line becomes element 0. A missing plugins line becomes element 1, after whatever the first line is. The rewritten input lines follow in their order. |
| ZshrcProperties.PatchThemeFoundLater | terminal-setup.py:84-87 | For any file whose first line is not a setting line, that has a theme line but no plugins line: the first line stays first, the plugins line becomes the second, and every theme line moves down by one, so each lands after the plugins line, not before it. |
| ZshrcProperties.PatchAppendsSourceLine | terminal-setup.py:88-90 | The source line is appended exactly when no kept line already sources Oh My Zsh, and nothing else is appended. The result always sources it. |
| ZshrcProperties.PatchKeepsOtherLines | terminal-setup.py:71-90 | The lines that are not setting lines come out unchanged and in their order, followed by the appended source line when one was needed. |
| ZshrcProperties.PatchSettingLines | terminal-setup.py:72-87 | A setting line that was present keeps its count of lines with that prefix, and a missing one appears exactly once. Every theme or plugins line written is the canonical one. |
| ZshrcProperties.PatchLength | terminal-setup.py:68-90 | The output length is the input length, plus one for each missing setting line, plus one when the source line is appended. |
| ZshrcProperties.PatchEmpty | terminal-setup.py:66-90 | Patching no lines gives the theme line, the plugins line and the source line, in that order. |
| ZshrcProperties.PatchIsPatched | terminal-setup.py:71-90 | Every output has only canonical setting lines, at least one of each kind, and sources Oh My Zsh. |
| ZshrcProperties.PatchFixedPoints | terminal-setup.py:71-90 | The patch leaves a list unchanged exactly when its setting lines are canonical, both kinds are present and some line sources Oh My Zsh. |
| ZshrcProperties.PatchIdempotent | terminal-setup.py:64-90 | Patching a patched list changes nothing. |
| Text.Normalize | terminal-setup.py:70 | Text-mode reading leaves no carriage return. Text without one reads unchanged, and a newline is never lost. |
| Text.NormalizeFree | terminal-setup.py:70 | Text without a carriage return passes through unchanged in front of whatever follows it. |
| Text.NormalizeLoneCR | terminal-setup.py:70 | A carriage return not followed by a newline is read as one newline, so it ends a line. |
| Text.NormalizeCRLF | terminal-setup.py:70 | A carriage return followed by a newline is read as a single newline. |
| Text.JoinSplit | terminal-setup.py:70-71 | The lines `for line in f` yields are non-empty, and all but the last end with a newline. Concatenating them gives back the text. |
| Text.SplitJoin | terminal-setup.py:92-93 | Lines of that shape, written with `writelines` and read back, are the same lines. |
| Text.SplitLinesAfter | terminal-setup.py:92-93 | Text after lines that each end with a newline splits into those lines followed by the text's own lines. |
| ZshrcFile.ReadLines | terminal-setup.py:68-71 | A missing file gives no lines. Otherwise the lines read, concatenated, are the text after newline translation. |
| ZshrcFile.Rewrite | terminal-setup.py:64-93 | The text left in the file by reading, patching and writing. Whatever line endings the file had, the text written contains no carriage return. |
| ZshrcFile.ReadLinesShape | terminal-setup.py:68-71 | What the loop reads from a file has the shape of a file's lines and contains no carriage return. A missing file gives no lines. |
| ZshrcFile.PatchNoCarriageReturn | terminal-setup.py:71-90 | The patcher brings in no carriage return. |
| ZshrcFile.WithPluginsWellFormed | terminal-setup.py:80-87 | The inserted lines end with a newline, and the plugins line lands after a line that has one, so the list keeps the shape of a file's lines. |
| ZshrcFile.ResplitAfterUnterminated | terminal-setup.py:88-93 | When the last line has no newline, the appended source line ends it. Read back, the file is one the patcher leaves alone. |
| ZshrcFile.ResplitPatched | terminal-setup.py:64-93 | The file written, read back, is a list of lines the patcher leaves unchanged. |
| ZshrcFile.RewriteIdempotent | terminal-setup.py:64-93 | Running the patcher on the `.zshrc` it has just written leaves the file's text unchanged. |
| ZshrcFile.SetThemeAndPluginsInFile | terminal-setup.py:64-93 | Reading the file (nothing when it is missing), patching the lines and writing them back produces text that a second run leaves unchanged. |
| ZshrcFile.RewriteMissing | terminal-setup.py:66-93 | A missing `.zshrc` and an empty one are both written as the theme line, the plugins line and the source line. |
| Backups.LexLe | terminal-setup.py:39 | Python's `<=` on strings: characters compared left to right by code point, and a prefix comes first. A prefix is at most the string, and the first characters of ordered non-empty strings are ordered. |
| Backups.LexLeTotal | terminal-setup.py:38 | Python's string order compares any two names. |
| Backups.LexLeAntisymmetric | terminal-setup.py:38 | Two names that each come no later than the other are equal. |
| Backups.LexLeTransitive | terminal-setup.py:38 | Python's string order is transitive. |
| Backups.InsertDesc | terminal-setup.py:38 | Inserting a name keeps the multiset of names plus that one name. |
| Backups.InsertDescSorted | terminal-setup.py:38 | Inserting into a descending list keeps it descending. |
| Backups.SortDesc | terminal-setup.py:38 | Sorting is a permutation of the folder's names. |
| Backups.SortDescSorted | terminal-setup.py:38 | The sorted names are in descending order. |
| Backups.SortedDescUnique | terminal-setup.py:38 | Two descending orders of the same names are the same list. |
| Backups.ListBackups | terminal-setup.py:35-42 | A missing folder lists nothing. Otherwise the listing holds exactly the folder's names, each as often as it occurs. |
| Backups.ListBackupsCharacterized | terminal-setup.py:35-42 | A missing folder lists nothing. Otherwise a list is the listing exactly when it is a descending permutation of the folder's names. |
| Backups.PyIndex | terminal-setup.py:51-52 | `backups[idx]` succeeds exactly when `-len <= idx < len`, and then gives the element at `idx` taken modulo the length. |
| Backups.Restore | terminal-setup.py:44-55 | An empty listing means nothing to restore. The selection is invalid exactly when the input is not a number or `n - 1` is outside `[-len, len)`. A restore always uses a name from the folder. |
| Backups.RestorePicksPosition | terminal-setup.py:50-52 | A number from 1 to the count restores the backup at that position of the listing. |
| Backups.RestoreCountsFromEnd | terminal-setup.py:50-52 | Zero and negative numbers down to `-len + 1` count from the end of the listing. |
| Backups.RestoreOneNewest | terminal-setup.py:38-52 | Choosing 1 restores the backup whose name is largest in Python's string order. |
| Backups.RestoreZeroOldest | terminal-setup.py:38-52 | Choosing 0 restores the backup whose name is smallest. |
| Timestamps.Stamp | terminal-setup.py:11 | `strftime("%Y%m%d_%H%M%S")` on a clock reading: 15 characters, eight digits, an underscore, six digits. |
| Timestamps.PadValue | terminal-setup.py:11 | A zero-padded field reads back as the number it was written from. |
| Timestamps.DigitsOrder | terminal-setup.py:11 | Digit strings of equal length compare as strings the way their values compare. |
| Timestamps.StampOrder | terminal-setup.py:11 | One `%Y%m%d_%H%M%S` name is at most another as a string exactly when its clock reading is not later. |
| Timestamps.RestoreOneLatest | terminal-setup.py:35-52 | When every backup is named by a local clock reading, choosing 1 restores the one with the latest reading. |

## Left out

- `run_cmd` and `install_zsh_and_ohmyzsh` (terminal-setup.py:15-18, 95-114) run shell commands. That is process I/O with nothing to model.
- The copying in `backup_configs` and `restore_configs` (terminal-setup.py:20-33, 56-62) is left out, along with `os.makedirs`, `os.path.exists` and `os.path.join`. These are file-system calls. `Backups.Restore` ends in the name of the folder to restore from.
- The menu in `main` and the privilege check and exception handler under `__main__` (terminal-setup.py:116-138) are console and process handling.
- The printed messages, including the numbered listing in `list_backups`, are console output only.
- `datetime.now()` is a clock. `Timestamps` takes the reading as a parameter.
- `Timestamps.RestoreOneLatest`: says "latest reading", not "newest backup". `datetime.now()` is naive local wall-clock time, so a daylight-saving fall-back or a clock set back can give a newer backup a smaller name. The model has no notion of real elapsed time.
- `Timestamps.ValidMoment`: limited to four-digit years, because `%Y` zero-padding of years below 1000 differs between C libraries.
- `int(choice)` is not modelled. The number typed arrives as `Option<int>`, with `None` where `int()` raises `ValueError`. Python accepts signs, surrounding whitespace and digit-group underscores there, and the model does not describe which strings parse.
- Reading a file decodes bytes with the locale's encoding, which is not modelled. Text is a sequence of characters from the start.
- `Backups.ListBackups`: folder names that `os.listdir` (terminal-setup.py:39) cannot decode come back with lone surrogates (`surrogateescape`). A Dafny `char` cannot hold those, so such names are not represented, and neither `ListBackups` nor `LexLe` covers them.
- Writing assumes `os.linesep` is `"\n"` (POSIX), so written text is the plain concatenation of the lines.
- The `os.path.exists` test and the two `open` calls in `set_zsh_theme_and_plugins` (terminal-setup.py:68-70, 92-93) are file I/O. `ZshrcFile.SetThemeAndPluginsInFile` takes the file's contents instead (`None` when the file is missing) and returns the text written.

=== FILE: backups.dfy ===
/** Choosing a backup to restore: the backup folders are listed in
    descending order of their names, and the number the user types picks one
    with Python's list indexing, negative indices included. */
module Backups {
  import opened Wrappers

  /** Python's `a <= b` on strings: code points compared left to right, a
      proper prefix comes first. */
  predicate LexLe(a: string, b: string)
    ensures a <= b ==> LexLe(a, b)
    ensures LexLe(a, b) && |a| > 0 ==> |b| > 0 && a[0] <= b[0]
    decreases |a|
  {
    |a| == 0 || (|b| > 0 && (a[0] < b[0] || (a[0] == b[0] && LexLe(a[1..], b[1..]))))
  }

  lemma {:induction false} LexLeReflexive(a: string)
    ensures LexLe(a, a)
    decreases |a|
  {
    if |a| > 0 {
      LexLeReflexive(a[1..]);
    }
  }

  lemma {:induction false} LexLeTotal(a: string, b: string)
    ensures LexLe(a, b) || LexLe(b, a)
    decreases |a|
  {
    if |a| > 0 && |b| > 0 && a[0] == b[0] {
      LexLeTotal(a[1..], b[1..]);
    }
  }

  lemma {:induction false} LexLeAntisymmetric(a: string, b: string)
    requires LexLe(a, b) && LexLe(b, a)
    ensures a == b
    decreases |a|
  {
    if |a| > 0 {
      LexLeAntisymmetric(a[1..], b[1..]);
      assert a == [a[0]] + a[1..];
      assert b == [b[0]] + b[1..];
    }
  }

  lemma {:induction false} LexLeTransitive(a: string, b: string, c: string)
    requires LexLe(a, b) && LexLe(b, c)
    ensures LexLe(a, c)
    decreases |a|
  {
    if |a| > 0 && a[0] == b[0] && b[0] == c[0] {
      LexLeTransitive(a[1..], b[1..], c[1..]);
    }
  }

  /** Every later name is at most every earlier one: `reverse=True` order. */
  predicate SortedDesc(s: seq<string>) {
    forall i, j :: 0 <= i < j < |s| ==> LexLe(s[j], s[i])
  }

  /** Places `x` before the first name that is not larger than it. */
  function InsertDesc(x: string, s: seq<string>): (r: seq<string>)
    ensures multiset(r) == multiset(s) + multiset{x}
    ensures |r| == |s| + 1
  {
    if |s| == 0 then [x]
    else if LexLe(s[0], x) then [x] + s
    else
      assert s == [s[0]] + s[1..];
      [s[0]] + InsertDesc(x, s[1..])
  }

  /** The head of a sorted sequence is at least every element. */
  lemma {:induction false} SortedDescHead(s: seq<string>, y: string)
    requires SortedDesc(s) && |s| > 0 && y in multiset(s)
    ensures LexLe(y, s[0])
  {
    var k :| 0 <= k < |s| && s[k] == y;
    if k == 0 {
      LexLeReflexive(y);
    }
  }

  /** Every element of the tail of a sorted sequence is at most its head. */
  lemma {:induction false} SortedDescBelowHead(s: seq<string>, j: nat)
    requires SortedDesc(s) && j < |s|
    ensures LexLe(s[j], s[0])
  {
    if j == 0 {
      LexLeReflexive(s[0]);
    }
  }

  /** `x` goes in front: it is at least the head, hence at least all. */
  lemma {:induction false} InsertDescFront(x: string, s: seq<string>)
    requires SortedDesc(s) && |s| > 0 && LexLe(s[0], x)
    ensures SortedDesc([x] + s)
  {
    var r := [x] + s;
    forall i, j | 0 <= i < j < |r| ensures LexLe(r[j], r[i]) {
      if i == 0 {
        SortedDescBelowHead(s, j - 1);
        LexLeTransitive(s[j - 1], s[0], x);
      } else {
        assert r[i] == s[i - 1] && r[j] == s[j - 1];
      }
    }
  }

  /** A sorted sequence stays sorted behind a head at least all of it. */
  lemma {:induction false} SortedDescCons(h: string, rest: seq<string>)
    requires SortedDesc(rest)
    requires forall j :: 0 <= j < |rest| ==> LexLe(rest[j], h)
    ensures SortedDesc([h] + rest)
  {
    var r := [h] + rest;
    forall i, j | 0 <= i < j < |r| ensures LexLe(r[j], r[i]) {
      if i == 0 {
        assert r[j] == rest[j - 1];
      } else {
        assert r[i] == rest[i - 1] && r[j] == rest[j - 1];
      }
    }
  }

  lemma {:induction false} InsertDescSorted(x: string, s: seq<string>)
    requires SortedDesc(s)
    ensures SortedDesc(InsertDesc(x, s))
    decreases |s|
  {
    if |s| == 0 {
    } else if LexLe(s[0], x) {
      InsertDescFront(x, s);
    } else {
      var tail := s[1..];
      SortedDescTail(s);
      InsertDescSorted(x, tail);
      var rest := InsertDesc(x, tail);
      LexLeTotal(x, s[0]);
      forall j | 0 <= j < |rest| ensures LexLe(rest[j], s[0]) {
        assert rest[j] in multiset(rest);
        if rest[j] != x {
          assert rest[j] in multiset(tail);
          var k :| 0 <= k < |tail| && tail[k] == rest[j];
          SortedDescBelowHead(s, k + 1);
        }
      }
      SortedDescCons(s[0], rest);
    }
  }

  /** `sorted(names, reverse=True)`, as an insertion sort. */
  function SortDesc(names: seq<string>): (r: seq<string>)
    ensures multiset(r) == multiset(names)
  {
    if |names| == 0 then []
    else
      assert names == [names[0]] + names[1..];
      InsertDesc(names[0], SortDesc(names[1..]))
  }

  lemma {:induction false} SortDescSorted(names: seq<string>)
    ensures SortedDesc(SortDesc(names))
  {
    if |names| > 0 {
      SortDescSorted(names[1..]);
      InsertDescSorted(names[0], SortDesc(names[1..]));
    }
  }

  /** Two descending orders of the same names are the same sequence. */
  lemma {:induction false} SortedDescUnique(s: seq<string>, t: seq<string>)
    requires SortedDesc(s) && SortedDesc(t) && multiset(s) == multiset(t)
    ensures s == t
  {
    if |s| > 0 {
      assert |t| == |s| by {
        assert |multiset(s)| == |s| && |multiset(t)| == |t|;
      }
      assert s[0] in multiset(t) && t[0] in multiset(s);
      SortedDescHead(t, s[0]);
      SortedDescHead(s, t[0]);
      LexLeAntisymmetric(s[0], t[0]);
      assert s == [s[0]] + s[1..];
      assert t == [t[0]] + t[1..];
      assert multiset(s) == multiset([s[0]]) + multiset(s[1..]);
      assert multiset(t) == multiset([t[0]]) + multiset(t[1..]);
      assert multiset(s[1..]) == multiset(s) - multiset([s[0]]);
      assert multiset(t[1..]) == multiset(t) - multiset([t[0]]);
      SortedDescTail(s);
      SortedDescTail(t);
      SortedDescUnique(s[1..], t[1..]);
    } else {
      assert |t| == 0 by {
        assert |multiset(t)| == |t|;
      }
    }
  }

  lemma {:induction false} SortedDescTail(s: seq<string>)
    requires SortedDesc(s) && |s| > 0
    ensures SortedDesc(s[1..])
  {
    var tail := s[1..];
    forall i, j | 0 <= i < j < |tail| ensures LexLe(tail[j], tail[i]) {
      assert tail[i] == s[i + 1] && tail[j] == s[j + 1];
    }
  }

  /** `list_backups`: the names in the backup folder in descending order, or
      nothing when the folder is missing (`None`). */
  function ListBackups(folder: Option<seq<string>>): (r: seq<string>)
    ensures folder.None? ==> r == []
    ensures folder.Some? ==> multiset(r) == multiset(folder.value)
  {
    match folder
    case None => []
    case Some(entries) => SortDesc(entries)
  }

  /** The listing is the one descending order of the folder's names. */
  lemma ListBackupsCharacterized(folder: Option<seq<string>>, s: seq<string>)
    ensures folder.None? ==> ListBackups(folder) == []
    ensures folder.Some? ==>
      (s == ListBackups(folder) <==> SortedDesc(s) && multiset(s) == multiset(folder.value))
  {
    if folder.Some? {
      SortDescSorted(folder.value);
      if SortedDesc(s) && multiset(s) == multiset(folder.value) {
        SortedDescUnique(s, SortDesc(folder.value));
      }
    }
  }

  /** Python's `s[i]` for an int `i`: negative indices count from the end,
      and an index outside `[-len, len)` raises IndexError (`None`). */
  function PyIndex<T>(s: seq<T>, i: int): (r: Option<T>)
    ensures r.Some? <==> -|s| <= i < |s|
    ensures r.Some? ==> r.value == s[i % |s|]
  {
    if 0 <= i < |s| then Some(s[i])
    else if -|s| <= i < 0 then
      assert (|s| + i) % |s| == i % |s|;
      Some(s[|s| + i])
    else None
  }

  /** What `restore_configs` ends in. */
  datatype RestoreOutcome =
    | NoBackups                     // "No backups to restore."
    | InvalidSelection              // "Invalid selection."
    | RestoreFrom(backup: string)   // the files are copied from this folder

  /** `restore_configs` up to the copying: `choice` is the number typed, or
      `None` when `int()` rejects the input. */
  function Restore(folder: Option<seq<string>>, choice: Option<int>): (r: RestoreOutcome)
    ensures r.NoBackups? <==> ListBackups(folder) == []
    ensures r.InvalidSelection? <==>
      ListBackups(folder) != [] &&
      (choice.None? || choice.value - 1 >= |ListBackups(folder)|
                    || choice.value - 1 < -|ListBackups(folder)|)
    ensures r.RestoreFrom? ==> folder.Some? && r.backup in folder.value
  {
    var backups := ListBackups(folder);
    if backups == [] then NoBackups
    else match choice
      case None => InvalidSelection
      case Some(n) =>
        match PyIndex(backups, n - 1)
        case None => InvalidSelection
        case Some(b) =>
          assert b in multiset(backups);
          RestoreFrom(b)
  }

  /** A number from 1 to the count picks that position of the listing. */
  lemma RestorePicksPosition(folder: Option<seq<string>>, n: int)
    requires 1 <= n <= |ListBackups(folder)|
    ensures Restore(folder, Some(n)) == RestoreFrom(ListBackups(folder)[n - 1])
  {
  }

  /** Zero and negative numbers count from the end: 0 picks the oldest. */
  lemma RestoreCountsFromEnd(folder: Option<seq<string>>, n: int)
    requires -|ListBackups(folder)| < n <= 0
    ensures Restore(folder, Some(n))
         == RestoreFrom(ListBackups(folder)[|ListBackups(folder)| + n - 1])
  {
  }

  /** Choosing 1 restores the backup whose name is the largest. */
  lemma {:induction false} RestoreOneNewest(folder: Option<seq<string>>)
    requires folder.Some? && |folder.value| > 0
    ensures Restore(folder, Some(1)).RestoreFrom?
    ensures forall e :: e in folder.value ==> LexLe(e, Restore(folder, Some(1)).backup)
  {
    var backups := ListBackups(folder);
    SortDescSorted(folder.value);
    assert |multiset(backups)| == |backups|;
    forall e | e in folder.value ensures LexLe(e, backups[0]) {
      assert e in multiset(backups);
      SortedDescHead(backups, e);
    }
  }

  /** Choosing 0 restores the backup whose name is the smallest. */
  lemma {:induction false} RestoreZeroOldest(folder: Option<seq<string>>)
    requires folder.Some? && |folder.value| > 0
    ensures Restore(folder, Some(0)).RestoreFrom?
    ensures forall e :: e in folder.value ==> LexLe(Restore(folder, Some(0)).backup, e)
  {
    var backups := ListBackups(folder);
    SortDescSorted(folder.value);
    assert |multiset(backups)| == |backups|;
    var last := |backups| - 1;
    forall e | e in folder.value ensures LexLe(backups[last], e) {
      assert e in multiset(backups);
      var k :| 0 <= k < |backups| && backups[k] == e;
      if k == last {
        LexLeReflexive(e);
      }
    }
  }
}

=== FILE: text.dfy ===
/** Text as the program sees it: Python `str` values modelled as `string`,
    the prefix and substring tests it uses, and the way a text-mode file is
    cut into lines when read and glued back together when written. */
module Text {

  /** Python's `s.startswith(prefix)`. */
  predicate StartsWith(s: string, prefix: string) {
    |prefix| <= |s| && s[..|prefix|] == prefix
  }

  /** `sub` occurs in `s` starting at index `i`. */
  predicate OccursAt(s: string, sub: string, i: nat) {
    i + |sub| <= |s| && s[i..i + |sub|] == sub
  }

  /** Python's `sub in s` on strings. */
  predicate Contains(s: string, sub: string)
    ensures StartsWith(s, sub) ==> Contains(s, sub)
    ensures Contains(s, sub) ==> |sub| <= |s|
  {
    assert StartsWith(s, sub) ==> OccursAt(s, sub, 0);
    exists i: nat | i <= |s| :: OccursAt(s, sub, i)
  }

  /** Every character of a contained substring occurs in the containing
      string; used to show that a line cannot contain a directive when it
      lacks one of the directive's characters. */
  lemma {:induction false} ContainsCharacters(s: string, sub: string, k: nat)
    requires Contains(s, sub)
    requires k < |sub|
    ensures sub[k] in s
  {
    var i: nat :| i <= |s| && OccursAt(s, sub, i);
    assert s[i + k] == s[i..i + |sub|][k];
  }

  /** A string extended by one character starts with a prefix only if the
      string itself does, or the prefix ends in that very character. */
  lemma {:induction false} StartsWithExtended(s: string, c: char, prefix: string)
    ensures StartsWith(s + [c], prefix) ==> StartsWith(s, prefix) || c in prefix
  {
    if StartsWith(s + [c], prefix) {
      if |prefix| <= |s| {
        assert (s + [c])[..|prefix|] == s[..|prefix|];
      } else {
        assert prefix[|s|] == (s + [c])[|s|];
      }
    }
  }

  /** Universal-newline translation done by Python's `open(path, "r")`:
      `"\r\n"` and a lone `"\r"` are both read as `"\n"`. */
  function Normalize(raw: string): (t: string)
    ensures '\r' !in t
    ensures '\r' !in raw ==> t == raw
    ensures '\n' in raw ==> '\n' in t
    decreases |raw|
  {
    if |raw| == 0 then ""
    else if raw[0] == '\r' then
      if |raw| > 1 && raw[1] == '\n' then "\n" + Normalize(raw[2..])
      else "\n" + Normalize(raw[1..])
    else [raw[0]] + Normalize(raw[1..])
  }

  /** Text without a carriage return is read as it is. */
  lemma {:induction false} NormalizeFree(a: string, b: string)
    requires '\r' !in a
    ensures Normalize(a + b) == a + Normalize(b)
    decreases |a|
  {
    if |a| > 0 {
      assert (a + b)[0] == a[0] && (a + b)[1..] == a[1..] + b;
      NormalizeFree(a[1..], b);
      assert a == [a[0]] + a[1..];
    } else {
      assert a + b == b;
    }
  }

  /** A lone carriage return ends a line: it is read as one newline. */
  lemma {:induction false} NormalizeLoneCR(a: string, b: string)
    requires '\r' !in a
    requires |b| == 0 || b[0] != '\n'
    ensures Normalize(a + "\r" + b) == a + "\n" + Normalize(b)
  {
    NormalizeFree(a, "\r" + b);
    assert a + "\r" + b == a + ("\r" + b);
    var t := "\r" + b;
    assert t[1..] == b;
  }

  /** A carriage return followed by a newline is read as one newline. */
  lemma {:induction false} NormalizeCRLF(a: string, b: string)
    requires '\r' !in a
    ensures Normalize(a + "\r\n" + b) == a + "\n" + Normalize(b)
  {
    NormalizeFree(a, "\r\n" + b);
    assert a + "\r\n" + b == a + ("\r\n" + b);
    var t := "\r\n" + b;
    assert t[2..] == b;
  }

  /** One line as produced by iterating over a text file: non-empty, and a
      newline can only be its last character. */
  predicate IsLine(line: string) {
    |line| > 0 && '\n' !in line[..|line| - 1]
  }

  /** A line that ends with its newline. */
  predicate Terminated(line: string) {
    |line| > 0 && line[|line| - 1] == '\n'
  }

  /** The shape of the list of lines read from a file: every element is a
      line and only the last one may lack its newline. */
  predicate WellFormed(ls: seq<string>) {
    && (forall i :: 0 <= i < |ls| ==> IsLine(ls[i]))
    && (forall i :: 0 <= i < |ls| - 1 ==> Terminated(ls[i]))
  }

  /** `f.writelines(ls)`: the text written is the concatenation of the
      elements, with no separator added. */
  function JoinLines(ls: seq<string>): (r: string)
    ensures |ls| > 0 ==> ls[0] <= r
    ensures forall i :: 0 <= i < |ls| ==> |ls[i]| <= |r|
  {
    if |ls| == 0 then "" else ls[0] + JoinLines(ls[1..])
  }

  lemma {:induction false} JoinLinesAppend(ls: seq<string>, last: string)
    ensures JoinLines(ls + [last]) == JoinLines(ls) + last
  {
    if |ls| == 0 {
      assert ls + [last] == [last];
    } else {
      assert (ls + [last])[1..] == ls[1..] + [last];
      JoinLinesAppend(ls[1..], last);
    }
  }

  /** A character occurs in the written text exactly when it occurs in one
      of the elements. */
  lemma {:induction false} JoinLinesChar(ls: seq<string>, c: char)
    ensures c in JoinLines(ls) <==> exists i :: 0 <= i < |ls| && c in ls[i]
  {
    if |ls| > 0 {
      JoinLinesChar(ls[1..], c);
      if c in JoinLines(ls[1..]) {
        var i :| 0 <= i < |ls[1..]| && c in ls[1..][i];
        assert c in ls[i + 1];
      }
      if exists i :: 0 <= i < |ls| && c in ls[i] {
        var i :| 0 <= i < |ls| && c in ls[i];
        if i > 0 {
          assert c in ls[1..][i - 1];
        }
      }
    }
  }

  /** Length of the first line of `t`: up to and including the first
      newline, or all of `t` when it has none. */
  function LineLength(t: string): (n: nat)
    requires |t| > 0
    ensures 1 <= n <= |t|
    ensures '\n' !in t[..n - 1]
    ensures n < |t| ==> t[n - 1] == '\n'
    decreases |t|
  {
    if t[0] == '\n' || |t| == 1 then 1
    else
      var m := LineLength(t[1..]);
      assert t[1..][..m - 1] == t[1..m];
      assert t[..m] == [t[0]] + t[1..m];
      1 + m
  }

  /** The first line of `t` is determined by where its first newline is. */
  lemma {:induction false} LineLengthIs(t: string, k: nat)
    requires 1 <= k <= |t|
    requires '\n' !in t[..k - 1]
    requires k < |t| ==> t[k - 1] == '\n'
    ensures LineLength(t) == k
  {

  }

  /** Iterating over a text-mode file: the text is cut after every newline,
      and a final piece without newline is a line of its own. */
  function SplitLines(t: string): (r: seq<string>)
    decreases |t|
  {
    if |t| == 0 then []
    else
      var n := LineLength(t);
      [t[..n]] + SplitLines(t[n..])
  }

  /** Putting a line in front of a list of lines keeps its shape when the
      line ends with a newline or nothing follows it. */
  lemma {:induction false} WellFormedCons(line: string, rest: seq<string>)
    requires IsLine(line) && WellFormed(rest)
    requires |rest| > 0 ==> Terminated(line)
    ensures WellFormed([line] + rest)
  {
    var ls := [line] + rest;
    forall i | 0 <= i < |ls|
      ensures IsLine(ls[i])
      ensures i < |ls| - 1 ==> Terminated(ls[i])
    {
      if i > 0 {
        assert ls[i] == rest[i - 1];
      }
    }
  }

  /** The lines read from any text have the shape of a file's lines, and
      writing them back reproduces the text exactly. */
  lemma {:induction false} JoinSplit(t: string)
    ensures WellFormed(SplitLines(t))
    ensures JoinLines(SplitLines(t)) == t
    decreases |t|
  {
    if |t| > 0 {
      var n := LineLength(t);
      var line, rest := t[..n], SplitLines(t[n..]);
      assert SplitLines(t) == [line] + rest;
      JoinSplit(t[n..]);
      assert IsLine(line);
      assert |rest| > 0 ==> Terminated(line) by {
        if |rest| > 0 {
          assert |t[n..]| > 0;
        }
      }
      WellFormedCons(line, rest);
      assert ([line] + rest)[1..] == rest;
      assert t == line + t[n..];
    }
  }

  /** Every element is a line that ends with its newline. */
  predicate TerminatedLines(ls: seq<string>) {
    forall i :: 0 <= i < |ls| ==> IsLine(ls[i]) && Terminated(ls[i])
  }

  /** A terminated line at the front of a text is split off as it is. */
  lemma {:induction false} SplitLinesCons(first: string, rest: string)
    requires IsLine(first) && Terminated(first)
    ensures SplitLines(first + rest) == [first] + SplitLines(rest)
  {
    var t := first + rest;
    var n := |first|;
    assert t[..n] == first;
    assert t[..n - 1] == first[..n - 1];
    LineLengthIs(t, n);
    assert t[n..] == rest;
  }

  /** Splitting a text that starts with a run of terminated lines yields
      those lines first. */
  lemma {:induction false} SplitLinesAfter(ls: seq<string>, tail: string)
    requires TerminatedLines(ls)
    ensures SplitLines(JoinLines(ls) + tail) == ls + SplitLines(tail)
  {
    if |ls| == 0 {
      assert JoinLines(ls) + tail == tail;
    } else {
      var others := ls[1..];
      assert SplitLines(JoinLines(ls) + tail) == [ls[0]] + SplitLines(JoinLines(others) + tail) by {
        assert IsLine(ls[0]) && Terminated(ls[0]);
        assert JoinLines(ls) + tail == ls[0] + (JoinLines(others) + tail);
        SplitLinesCons(ls[0], JoinLines(others) + tail);
      }
      assert TerminatedLines(others) by {
        forall i | 0 <= i < |others| ensures IsLine(others[i]) && Terminated(others[i]) {
          assert others[i] == ls[i + 1];
        }
      }
      SplitLinesAfter(others, tail);
      assert ls == [ls[0]] + others;
    }
  }

  /** Reading back what was written gives the same lines, for any list that
      has the shape of a file's lines. */
  lemma {:induction false} SplitJoin(ls: seq<string>)
    requires WellFormed(ls)
    ensures SplitLines(JoinLines(ls)) == ls
  {
    if |ls| > 0 {
      var init := ls[..|ls| - 1];
      var last := ls[|ls| - 1];
      assert ls == init + [last];
      JoinLinesAppend(init, last);
      SplitLinesAfter(init, last);
      assert IsLine(last);
      LineLengthIs(last, |last|);
      assert last[..|last|] == last;
      assert SplitLines(last) == [last] + SplitLines(last[|last|..]);
      assert last[|last|..] == "";
    }
  }

  /** Every line but the last of a well-formed sequence has its newline. */
  lemma {:induction false} WellFormedInit(ls: seq<string>)
    requires WellFormed(ls) && |ls| > 0
    ensures TerminatedLines(ls[..|ls| - 1]) && IsLine(ls[|ls| - 1])
  {
    var init := ls[..|ls| - 1];
    forall i | 0 <= i < |init| ensures IsLine(init[i]) && Terminated(init[i]) {
      assert init[i] == ls[i];
    }
  }

  /** Appending to a non-empty sequence of lines writes the earlier lines,
      then the last one followed by the appended text. */
  lemma {:induction false} JoinLinesLast(ls: seq<string>, extra: string)
    requires |ls| > 0
    ensures JoinLines(ls + [extra]) == JoinLines(ls[..|ls| - 1]) + (ls[|ls| - 1] + extra)
  {
    var init, last := ls[..|ls| - 1], ls[|ls| - 1];
    calc {
      JoinLines(ls + [extra]);
    == { JoinLinesAppend(ls, extra); }
      JoinLines(ls) + extra;
    == { assert ls == init + [last]; }
      JoinLines(init + [last]) + extra;
    == { JoinLinesAppend(init, last); }
      (JoinLines(init) + last) + extra;
    ==
      JoinLines(init) + (last + extra);
    }
  }

  /** Dropping the first line keeps the shape. */
  lemma {:induction false} WellFormedTail(ls: seq<string>)
    requires WellFormed(ls) && |ls| > 0
    ensures WellFormed(ls[1..])
  {
    var rest := ls[1..];
    forall i | 0 <= i < |rest|
      ensures IsLine(rest[i])
      ensures i < |rest| - 1 ==> Terminated(rest[i])
    {
      assert rest[i] == ls[i + 1];
    }
  }

  /** A single line that has its newline reads back as itself. */
  lemma {:induction false} SplitOneLine(line: string)
    requires IsLine(line) && Terminated(line)
    ensures SplitLines(line) == [line]
  {
    SplitLinesCons(line, "");
    assert line + "" == line;
  }
}

=== FILE: timestamps.dfy ===
/** Backup folder names come from `strftime("%Y%m%d_%H%M%S")`: fixed-width,
    zero-padded decimal fields. Comparing such names as strings compares the
    local wall-clock readings they were made from, so the descending listing
    puts the latest reading first. */
module Timestamps {
  import opened Wrappers
  import opened Backups

  function Pow10(k: nat): (p: nat)
    ensures p >= 1
  {
    if k == 0 then 1 else 10 * Pow10(k - 1)
  }

  predicate IsDigit(c: char) {
    '0' <= c <= '9'
  }

  predicate IsDigits(s: string) {
    forall i :: 0 <= i < |s| ==> IsDigit(s[i])
  }

  function DigitValue(c: char): (d: nat)
    requires IsDigit(c)
  {
    c as int - '0' as int
  }

  function Digit(d: nat): (c: char)
    requires d < 10
    ensures IsDigit(c) && DigitValue(c) == d
  {
    ('0' as int + d) as char
  }

  /** The number a string of decimal digits spells, most significant first. */
  function DigitsValue(s: string): (n: nat)
    requires IsDigits(s)
  {
    if |s| == 0 then 0
    else DigitValue(s[0]) * Pow10(|s| - 1) + DigitsValue(s[1..])
  }

  /** A leading digit below another decides, whatever follows it. */
  lemma LeadingDigit(da: nat, db: nat, p: nat, ra: nat, rb: nat)
    requires da < db && ra < p
    ensures da * p + ra < db * p + rb
  {
    assert (da + 1) * p <= db * p;
  }

  lemma {:induction false} DigitsValueBound(s: string)
    requires IsDigits(s)
    ensures DigitsValue(s) < Pow10(|s|)
  {
    if |s| > 0 {
      DigitsValueBound(s[1..]);
      LeadingDigit(DigitValue(s[0]), 10, Pow10(|s| - 1), DigitsValue(s[1..]), 0);
    }
  }
  /** Appending a digit shifts the value one decimal place. */
  lemma {:induction false} DigitsValueSnoc(s: string, c: char)
    requires IsDigits(s) && IsDigit(c)
    ensures IsDigits(s + [c])
    ensures DigitsValue(s + [c]) == DigitsValue(s) * 10 + DigitValue(c)
  {
    var t := s + [c];
    assert forall i :: 0 <= i < |t| ==> t[i] == (if i < |s| then s[i] else c);
    if |s| > 0 {
      assert t[1..] == s[1..] + [c];
      DigitsValueSnoc(s[1..], c);
      var d, p := DigitValue(s[0]), Pow10(|s| - 1);
      calc {
        DigitsValue(t);
        d * (10 * p) + DigitsValue(s[1..] + [c]);
        d * (10 * p) + DigitsValue(s[1..]) * 10 + DigitValue(c);
        { assert d * (10 * p) == (d * p) * 10; }
        (d * p + DigitsValue(s[1..])) * 10 + DigitValue(c);
      }
    }
  }

  /** `n` written with `width` digits, zero-padded on the left: the
      directives `%Y` (width 4) and `%m`, `%d`, `%H`, `%M`, `%S` (width 2). */
  function Pad(n: nat, width: nat): (s: string)
    ensures |s| == width && IsDigits(s)
  {
    if width == 0 then "" else Pad(n / 10, width - 1) + [Digit(n % 10)]
  }

  /** A number below the width's bound reads back from its padded form. */
  lemma {:induction false} PadValue(n: nat, width: nat)
    requires n < Pow10(width)
    ensures IsDigits(Pad(n, width)) && DigitsValue(Pad(n, width)) == n
  {
    if width == 0 {
    } else {
      PadValue(n / 10, width - 1);
      DigitsValueSnoc(Pad(n / 10, width - 1), Digit(n % 10));
    }
  }

  /** Equal-length digit strings compare as strings as their values do. */
  lemma {:induction false} DigitsOrder(a: string, b: string)
    requires IsDigits(a) && IsDigits(b) && |a| == |b|
    ensures LexLe(a, b) <==> DigitsValue(a) <= DigitsValue(b)
  {
    if |a| > 0 {
      var p := Pow10(|a| - 1);
      var da, db := DigitValue(a[0]), DigitValue(b[0]);
      assert IsDigits(a[1..]) && IsDigits(b[1..]);
      DigitsValueBound(a[1..]);
      DigitsValueBound(b[1..]);
      if da < db {
        LeadingDigit(da, db, p, DigitsValue(a[1..]), DigitsValue(b[1..]));
      } else if db < da {
        LeadingDigit(db, da, p, DigitsValue(b[1..]), DigitsValue(a[1..]));
      } else {
        DigitsOrder(a[1..], b[1..]);
      }
    }
  }

  /** Behind prefixes of equal length, the prefixes decide unless they are
      equal. */
  lemma {:induction false} LexLeConcat(p: string, q: string, x: string, y: string)
    requires |p| == |q|
    ensures LexLe(p + x, q + y) <==> (if p == q then LexLe(x, y) else LexLe(p, q))
  {
    if |p| > 0 {
      assert (p + x)[1..] == p[1..] + x;
      assert (q + y)[1..] == q[1..] + y;
      LexLeConcat(p[1..], q[1..], x, y);
      if p[0] == q[0] && p[1..] == q[1..] {
        assert p == [p[0]] + p[1..] && q == [q[0]] + q[1..];
      }
    } else {
      assert p + x == x && q + y == y;
    }
  }

  /** One zero-padded field in front of the rest of the name. */
  lemma {:induction false} FieldOrder(a: nat, b: nat, width: nat, x: string, y: string)
    requires a < Pow10(width) && b < Pow10(width)
    ensures LexLe(Pad(a, width) + x, Pad(b, width) + y) <==> a < b || (a == b && LexLe(x, y))
  {
    PadValue(a, width);
    PadValue(b, width);
    LexLeConcat(Pad(a, width), Pad(b, width), x, y);
    DigitsOrder(Pad(a, width), Pad(b, width));
  }

  /** A local wall-clock reading as the naive `datetime.now()` reports it,
      to the second. */
  datatype Moment = Moment(year: nat, month: nat, day: nat, hour: nat, minute: nat, second: nat)

  /** Fields in `datetime`'s ranges; years of four digits. */
  predicate ValidMoment(m: Moment) {
    && 1000 <= m.year <= 9999
    && 1 <= m.month <= 12 && 1 <= m.day <= 31
    && m.hour < 24 && m.minute < 60 && m.second < 60
  }

  /** `m.strftime("%Y%m%d_%H%M%S")`. */
  function Stamp(m: Moment): (s: string)
    requires ValidMoment(m)
    ensures |s| == 15 && s[8] == '_'
    ensures IsDigits(s[..8]) && IsDigits(s[9..])
  {
    Pad(m.year, 4) + (Pad(m.month, 2) + (Pad(m.day, 2) +
      ("_" + (Pad(m.hour, 2) + (Pad(m.minute, 2) + Pad(m.second, 2))))))
  }

  /** `m1` is not after `m2`: the fields compared from the year down. */
  predicate NotLater(m1: Moment, m2: Moment) {
    m1.year < m2.year || (m1.year == m2.year &&
    (m1.month < m2.month || (m1.month == m2.month &&
    (m1.day < m2.day || (m1.day == m2.day &&
    (m1.hour < m2.hour || (m1.hour == m2.hour &&
    (m1.minute < m2.minute || (m1.minute == m2.minute &&
    m1.second <= m2.second)))))))))
  }

  /** The time of day part of the name orders by time of day. */
  lemma TimeOrder(m1: Moment, m2: Moment)
    requires ValidMoment(m1) && ValidMoment(m2)
    ensures LexLe(Pad(m1.hour, 2) + (Pad(m1.minute, 2) + Pad(m1.second, 2)),
                  Pad(m2.hour, 2) + (Pad(m2.minute, 2) + Pad(m2.second, 2)))
        <==> m1.hour < m2.hour || (m1.hour == m2.hour &&
             (m1.minute < m2.minute || (m1.minute == m2.minute && m1.second <= m2.second)))
  {
    FieldOrder(m1.hour, m2.hour, 2, Pad(m1.minute, 2) + Pad(m1.second, 2),
               Pad(m2.minute, 2) + Pad(m2.second, 2));
    FieldOrder(m1.minute, m2.minute, 2, Pad(m1.second, 2), Pad(m2.second, 2));
    PadValue(m1.second, 2);
    PadValue(m2.second, 2);
    DigitsOrder(Pad(m1.second, 2), Pad(m2.second, 2));
  }

  /** Comparing two backup names compares the clock readings they were made
      from. */
  lemma StampOrder(m1: Moment, m2: Moment)
    requires ValidMoment(m1) && ValidMoment(m2)
    ensures LexLe(Stamp(m1), Stamp(m2)) <==> NotLater(m1, m2)
  {
    var t1 := Pad(m1.hour, 2) + (Pad(m1.minute, 2) + Pad(m1.second, 2));
    var t2 := Pad(m2.hour, 2) + (Pad(m2.minute, 2) + Pad(m2.second, 2));
    TimeOrder(m1, m2);
    LexLeConcat("_", "_", t1, t2);
    var d1, d2 := "_" + t1, "_" + t2;
    FieldOrder(m1.day, m2.day, 2, d1, d2);
    var e1, e2 := Pad(m1.day, 2) + d1, Pad(m2.day, 2) + d2;
    FieldOrder(m1.month, m2.month, 2, e1, e2);
    var f1, f2 := Pad(m1.month, 2) + e1, Pad(m2.month, 2) + e2;
    FieldOrder(m1.year, m2.year, 4, f1, f2);
  }

  /** Among backups named by their clock readings, choosing 1 restores the
      one with the latest reading. */
  lemma RestoreOneLatest(moments: seq<Moment>, names: seq<string>)
    requires |moments| > 0 && |names| == |moments|
    requires forall k :: 0 <= k < |moments| ==> ValidMoment(moments[k]) && names[k] == Stamp(moments[k])
    ensures Restore(Some(names), Some(1)).RestoreFrom?
    ensures exists j :: 0 <= j < |moments| && Restore(Some(names), Some(1)).backup == names[j] &&
              forall k :: 0 <= k < |moments| ==> NotLater(moments[k], moments[j])
  {
    RestoreOneNewest(Some(names));
    var b := Restore(Some(names), Some(1)).backup;
    var j :| 0 <= j < |names| && names[j] == b;
    forall k | 0 <= k < |moments| ensures NotLater(moments[k], moments[j]) {
      assert names[k] in names;
      StampOrder(moments[k], moments[j]);
    }
  }
}

=== FILE: wrappers.dfy ===
/** The optional value used wherever the program may have nothing to return:
    a configuration file that does not exist, a backup directory that is
    missing, a selection that does not name a backup. */
module Wrappers {

  datatype Option<+T> = None | Some(value: T)
}

=== FILE: zshrc.dfy ===
/** The `.zshrc` patcher of the terminal setup tool, with its reads and
    writes taken away: a pure function from the lines read from the file to
    the lines written back. Lines that set the theme or the plugin list are
    replaced by canonical ones, a missing theme line is inserted at index 0
    and a missing plugins line at index 1, and
    a line sourcing Oh My Zsh is appended unless the file already sources it. */
module Zshrc {
  import opened Text

  const ThemePrefix: string := "ZSH_THEME="
  const PluginsPrefix: string := "plugins="
  /** The plugins enabled, in the order the plugin list names them. */
  const Plugins: seq<string> := ["git", "zsh-syntax-highlighting", "zsh-autosuggestions"]
  /** `ZSH_THEME="robbyrussell"` followed by a newline. */
  const ThemeLine: string := ThemePrefix + "\"robbyrussell\"" + "\n"
  /** `plugins=(git zsh-syntax-highlighting zsh-autosuggestions)` followed by
      a newline. */
  const PluginsLine: string :=
    PluginsPrefix + "(" + Plugins[0] + " " + Plugins[1] + " " + Plugins[2] + ")" + "\n"
  /** The substring whose presence in any line counts as "already sourced". */
  const SourceDirective: string := "source $ZSH/oh-my-zsh.sh"
  /** The element appended when the directive is missing; its leading newline
      ends an unterminated last line or leaves a blank line. */
  const SourceLine: string := "\n" + SourceDirective + "\n"

  predicate IsThemeLine(line: string) {
    StartsWith(line, ThemePrefix)
  }

  predicate IsPluginsLine(line: string) {
    StartsWith(line, PluginsPrefix)
  }

  /** A line the patcher rewrites; every other line is kept verbatim. */
  predicate IsSettingLine(line: string) {
    IsThemeLine(line) || IsPluginsLine(line)
  }

  /** No line sets both the theme and the plugin list: the prefixes already
      differ in their first character. */
  lemma {:induction false} SettingKindsDisjoint(line: string)
    ensures !(IsThemeLine(line) && IsPluginsLine(line))
  {
    if IsThemeLine(line) {
      assert line[0] == line[..|ThemePrefix|][0] == 'Z';
      assert PluginsPrefix[0] == 'p';
    }
  }

  /** Free of the characters the proofs care about: the `$` of the source
      directive, carriage returns and newlines. */
  predicate Plain(s: string) {
    '$' !in s && '\r' !in s && '\n' !in s
  }

  lemma {:induction false} PlainPrefixes()
    ensures Plain(ThemePrefix) && Plain(PluginsPrefix)
  {
  }

  lemma {:induction false} PlainThemeValue()
    ensures Plain("\"robbyrussell\"")
  {
  }

  lemma {:induction false} PlainPluginNames()
    ensures forall i :: 0 <= i < |Plugins| ==> Plain(Plugins[i])
  {
    assert Plain(Plugins[0]);
    assert Plain(Plugins[1]);
    assert Plain(Plugins[2]);
  }

  lemma {:induction false} PlainPunctuation()
    ensures Plain("(") && Plain(" ") && Plain(")")
  {
  }

  /** The canonical setting lines are single terminated lines without `$`. */
  lemma {:induction false} SettingLinesPlain()
    ensures Plain(ThemeLine[..|ThemeLine| - 1]) && Terminated(ThemeLine)
    ensures Plain(PluginsLine[..|PluginsLine| - 1]) && Terminated(PluginsLine)
  {
    PlainPrefixes();
    PlainThemeValue();
    PlainPluginNames();
    PlainPunctuation();
    assert ThemeLine[..|ThemeLine| - 1] == ThemePrefix + "\"robbyrussell\"";
    assert PluginsLine[..|PluginsLine| - 1]
      == PluginsPrefix + "(" + Plugins[0] + " " + Plugins[1] + " " + Plugins[2] + ")";
  }

  /** The shape of the three constant lines the patcher writes. */
  lemma {:induction false} ConstantLines()
    ensures IsThemeLine(ThemeLine) && !IsPluginsLine(ThemeLine)
    ensures IsPluginsLine(PluginsLine) && !IsThemeLine(PluginsLine)
    ensures !IsSettingLine(SourceLine)
    ensures IsLine(ThemeLine) && Terminated(ThemeLine)
    ensures IsLine(PluginsLine) && Terminated(PluginsLine)
    ensures '\r' !in ThemeLine && '\r' !in PluginsLine && '\r' !in SourceLine
  {
    assert ThemeLine[..|ThemePrefix|] == ThemePrefix;
    assert PluginsLine[..|PluginsPrefix|] == PluginsPrefix;
    SettingKindsDisjoint(ThemeLine);
    SettingKindsDisjoint(PluginsLine);
    SettingLinesPlain();
    assert ThemeLine == ThemeLine[..|ThemeLine| - 1] + "\n";
    assert PluginsLine == PluginsLine[..|PluginsLine| - 1] + "\n";
    assert SourceLine[0] == '\n';
  }

  /** The canonical setting lines do not count as sourcing Oh My Zsh, and the
      appended line does. */
  lemma {:induction false} SourceDirectiveLines()
    ensures !Contains(ThemeLine, SourceDirective)
    ensures !Contains(PluginsLine, SourceDirective)
    ensures Contains(SourceLine, SourceDirective)
  {
    SettingLinesPlain();
    assert ThemeLine == ThemeLine[..|ThemeLine| - 1] + "\n";
    assert PluginsLine == PluginsLine[..|PluginsLine| - 1] + "\n";
    assert SourceDirective[7] == '$';
    if Contains(ThemeLine, SourceDirective) {
      ContainsCharacters(ThemeLine, SourceDirective, 7);
    }
    if Contains(PluginsLine, SourceDirective) {
      ContainsCharacters(PluginsLine, SourceDirective, 7);
    }
    assert SourceLine[1..1 + |SourceDirective|] == SourceDirective;
    assert OccursAt(SourceLine, SourceDirective, 1);
  }

  /** What one line read from the file becomes (the body of the read loop). */
  function Canonical(line: string): (r: string)
    ensures r == line || r == ThemeLine || r == PluginsLine
  {
    if IsThemeLine(line) then ThemeLine
    else if IsPluginsLine(line) then PluginsLine
    else line
  }

  /** Canonicalising keeps a line's kind, and a canonical line stays put. */
  lemma {:induction false} CanonicalKind(line: string)
    ensures IsThemeLine(Canonical(line)) <==> IsThemeLine(line)
    ensures IsPluginsLine(Canonical(line)) <==> IsPluginsLine(line)
    ensures Canonical(Canonical(line)) == Canonical(line)
    ensures !IsSettingLine(line) ==> Canonical(line) == line
  {
    ConstantLines();
    SettingKindsDisjoint(line);
  }

  /** The read loop: every line is rewritten in place. */
  function MapLines(ls: seq<string>): (r: seq<string>)
    ensures |r| == |ls|
    ensures forall i :: 0 <= i < |ls| && IsThemeLine(ls[i]) ==> r[i] == ThemeLine
    ensures forall i :: 0 <= i < |ls| && IsPluginsLine(ls[i]) && !IsThemeLine(ls[i]) ==> r[i] == PluginsLine
    ensures forall i :: 0 <= i < |ls| && !IsSettingLine(ls[i]) ==> r[i] == ls[i]
  {
    seq(|ls|, i requires 0 <= i < |ls| => Canonical(ls[i]))
  }

  /** The three cases of the read loop determine its result. */
  lemma {:induction false} MapLinesUnique(ls: seq<string>, r: seq<string>)
    requires |r| == |ls|
    requires forall i :: 0 <= i < |ls| && IsThemeLine(ls[i]) ==> r[i] == ThemeLine
    requires forall i :: 0 <= i < |ls| && IsPluginsLine(ls[i]) && !IsThemeLine(ls[i]) ==> r[i] == PluginsLine
    requires forall i :: 0 <= i < |ls| && !IsSettingLine(ls[i]) ==> r[i] == ls[i]
    ensures r == MapLines(ls)
  {
    var m := MapLines(ls);
    forall i | 0 <= i < |ls| ensures r[i] == m[i] {
      if IsThemeLine(ls[i]) {
      } else if IsPluginsLine(ls[i]) {
      }
    }
  }

  /** Some line read sets the theme (`theme_set` after the loop). */
  predicate HasTheme(ls: seq<string>) {
    exists i :: 0 <= i < |ls| && IsThemeLine(ls[i])
  }

  /** Some line read sets the plugin list (`plugins_set` after the loop). */
  predicate HasPlugins(ls: seq<string>) {
    exists i :: 0 <= i < |ls| && IsPluginsLine(ls[i])
  }

  /** Some line contains the directive that sources Oh My Zsh. */
  predicate AnySource(ls: seq<string>) {
    exists i :: 0 <= i < |ls| && Contains(ls[i], SourceDirective)
  }

  /** Python's `list.insert(i, x)` for a non-negative index: an index past
      the end appends. */
  function PyInsert<T>(s: seq<T>, i: nat, x: T): (r: seq<T>)
    ensures |r| == |s| + 1
    ensures var k := if i <= |s| then i else |s|;
      r[k] == x && r[..k] == s[..k] && r[k + 1..] == s[k..]
  {
    if i <= |s| then s[..i] + [x] + s[i..] else s + [x]
  }

  /** The lines after the read loop and the theme insertion. */
  function WithTheme(ls: seq<string>): (r: seq<string>)
    ensures |r| == |ls| + (if HasTheme(ls) then 0 else 1) && |r| >= 1
    ensures !HasTheme(ls) ==> r[0] == ThemeLine
  {
    var mapped := MapLines(ls);
    if HasTheme(ls) then mapped else PyInsert(mapped, 0, ThemeLine)
  }

  /** `insert_idx` as the source computes it. It is always 1, and index 1 is
      never past the end: either a theme line was read, or one was just
      inserted at 0. */
  function PluginsIndex(ls: seq<string>): (r: int)
    ensures r == 1
  {
    ConstantLines();
    var lines := WithTheme(ls);
    if HasTheme(ls) || (|lines| > 0 && IsThemeLine(lines[0])) then 1 else 0
  }

  /** The lines after the plugins insertion. */
  function WithPlugins(ls: seq<string>): (r: seq<string>)
    ensures |r| == |WithTheme(ls)| + (if HasPlugins(ls) then 0 else 1)
    ensures !HasPlugins(ls) ==> r[1] == PluginsLine
  {
    if HasPlugins(ls) then WithTheme(ls)
    else PyInsert(WithTheme(ls), PluginsIndex(ls), PluginsLine)
  }

  /** The lines written back for the lines `ls` read. */
  function Patch(ls: seq<string>): (r: seq<string>)
    ensures |ls| <= |r| <= |ls| + 3
    ensures r == WithPlugins(ls) || r == WithPlugins(ls) + [SourceLine]
    ensures |WithPlugins(ls)| <= |r| && r[..|WithPlugins(ls)|] == WithPlugins(ls)
  {
    var lines := WithPlugins(ls);
    if AnySource(lines) then lines else lines + [SourceLine]
  }

  /** The lines the patcher never rewrites, in their order. */
  function Others(ls: seq<string>): (r: seq<string>) {
    if |ls| == 0 then []
    else (if IsSettingLine(ls[0]) then [] else [ls[0]]) + Others(ls[1..])
  }

  /** The appended line is needed exactly when no line the patcher keeps
      verbatim already sources Oh My Zsh (a setting line that mentions the
      directive is overwritten, so it does not count). */
  predicate NeedsSourceLine(ls: seq<string>) {
    !AnySource(Others(ls))
  }

  /** Number of lines starting with `prefix`. */
  function CountPrefix(ls: seq<string>, prefix: string): (n: nat) {
    if |ls| == 0 then 0
    else (if StartsWith(ls[0], prefix) then 1 else 0) + CountPrefix(ls[1..], prefix)
  }

  /** The read loop as the source writes it: each line is appended in
      canonical form, and a flag records each kind of setting line met. */
  method ReadSettings(existing: seq<string>) returns (lines: seq<string>, themeSet: bool, pluginsSet: bool)
    ensures lines == MapLines(existing)
    ensures themeSet == HasTheme(existing)
    ensures pluginsSet == HasPlugins(existing)
  {
    themeSet, pluginsSet := false, false;
    lines := [];
    var i := 0;
    while i < |existing|
      invariant 0 <= i <= |existing|
      invariant |lines| == i
      invariant forall j :: 0 <= j < i && IsThemeLine(existing[j]) ==> lines[j] == ThemeLine
      invariant forall j :: 0 <= j < i && IsPluginsLine(existing[j]) && !IsThemeLine(existing[j]) ==>
        lines[j] == PluginsLine
      invariant forall j :: 0 <= j < i && !IsSettingLine(existing[j]) ==> lines[j] == existing[j]
      invariant themeSet <==> exists j :: 0 <= j < i && IsThemeLine(existing[j])
      invariant pluginsSet <==> exists j :: 0 <= j < i && IsPluginsLine(existing[j])
    {
      var line := existing[i];
      if IsThemeLine(line) {
        SettingKindsDisjoint(line);
        lines := lines + [ThemeLine];
        themeSet := true;
      } else if IsPluginsLine(line) {
        lines := lines + [PluginsLine];
        pluginsSet := true;
      } else {
        lines := lines + [line];
      }
      i := i + 1;
    }
    MapLinesUnique(existing, lines);
  }

  /** Python's `any(SourceDirective in l for l in lines)`, stopping at the
      first line that contains the directive. */
  method AnySourced(lines: seq<string>) returns (sourced: bool)
    ensures sourced == AnySource(lines)
  {
    sourced := false;
    var k := 0;
    while k < |lines| && !sourced
      invariant 0 <= k <= |lines|
      invariant sourced <==> exists j :: 0 <= j < k && Contains(lines[j], SourceDirective)
    {
      if Contains(lines[k], SourceDirective) {
        sourced := true;
      }
      k := k + 1;
    }
  }

  /** The patcher as the source writes it: the read loop, the two inserts,
      then the `any(...)` test for the source directive. */
  method SetThemeAndPlugins(existing: seq<string>) returns (lines: seq<string>)
    ensures lines == Patch(existing)
  {
    var themeSet, pluginsSet;
    lines, themeSet, pluginsSet := ReadSettings(existing);
    if !themeSet {
      lines := PyInsert(lines, 0, ThemeLine);
    }
    assert lines == WithTheme(existing);
    if !pluginsSet {
      var insertIdx := if themeSet || (|lines| > 0 && IsThemeLine(lines[0])) then 1 else 0;
      assert insertIdx == PluginsIndex(existing);
      lines := PyInsert(lines, insertIdx, PluginsLine);
    }
    assert lines == WithPlugins(existing);
    var sourced := AnySourced(lines);
    if !sourced {
      lines := lines + [SourceLine];
    }
  }
}

=== FILE: zshrc_file.dfy ===
/** The patcher at the level of the file: the text read (nothing when the
    file does not exist) is cut into lines, patched, and written back as the
    concatenation of the resulting elements. */
module ZshrcFile {
  import opened Wrappers
  import opened Text
  import opened Zshrc
  import opened ZshrcProperties

  /** The lines the read loop sees; a missing file gives none. */
  function ReadLines(file: Option<string>): (r: seq<string>)
    ensures file.None? ==> r == []
    ensures file.Some? ==> JoinLines(r) == Normalize(file.value)
  {
    match file
    case None => []
    case Some(raw) =>
      JoinSplit(Normalize(raw));
      SplitLines(Normalize(raw))
  }

  /** The text `set_zsh_theme_and_plugins` leaves in the file: whatever line
      endings it was read with, it is written with newlines only. */
  function Rewrite(file: Option<string>): (r: string)
    ensures '\r' !in r
  {
    var out := Patch(ReadLines(file));
    ReadLinesShape(file);
    PatchNoCarriageReturn(ReadLines(file));
    JoinLinesChar(out, '\r');
    JoinLines(out)
  }

  predicate NoCarriageReturn(ls: seq<string>) {
    forall i :: 0 <= i < |ls| ==> '\r' !in ls[i]
  }

  /** What is read has the shape of a file's lines and, after newline
      translation, no carriage return. */
  lemma {:induction false} ReadLinesShape(file: Option<string>)
    ensures WellFormed(ReadLines(file))
    ensures NoCarriageReturn(ReadLines(file))
  {
    if file.Some? {
      var t := Normalize(file.value);
      JoinSplit(t);
      JoinLinesChar(SplitLines(t), '\r');
    }
  }

  /** Membership in the kept lines. */
  lemma {:induction false} OthersMembers(ls: seq<string>)
    ensures forall x :: x in Others(ls) ==> x in ls
    ensures forall i :: 0 <= i < |ls| && !IsSettingLine(ls[i]) ==> ls[i] in Others(ls)
  {
    if |ls| > 0 {
      OthersMembers(ls[1..]);
      assert ls == [ls[0]] + ls[1..];
      forall i | 1 <= i < |ls| ensures ls[i] == ls[1..][i - 1] {
      }
    }
  }

  /** Every line written is a line read or one of the three constant lines,
      so the patcher brings in no carriage return. */
  lemma {:induction false} PatchNoCarriageReturn(ls: seq<string>)
    requires NoCarriageReturn(ls)
    ensures NoCarriageReturn(Patch(ls))
  {
    var out := Patch(ls);
    PatchSettingLines(ls);
    PatchKeepsOtherLines(ls);
    OthersMembers(ls);
    OthersMembers(out);
    ConstantLines();
    forall j | 0 <= j < |out| ensures '\r' !in out[j] {
      if !IsSettingLine(out[j]) {
        assert out[j] in Others(out);
      }
    }
  }

  /** The rewritten lines before the source line keep the file's shape: the
      inserted setting lines have their newline, and the plugins line lands
      after a first line that has one. */
  lemma {:induction false} MapLinesWellFormed(ls: seq<string>)
    requires WellFormed(ls)
    ensures WellFormed(MapLines(ls))
  {
    ConstantLines();
    var m := MapLines(ls);
    forall i | 0 <= i < |m|
      ensures IsLine(m[i])
      ensures i < |m| - 1 ==> Terminated(m[i])
    {
    }
  }

  /** Inserting the theme line keeps the shape: it has its newline. */
  lemma {:induction false} WithThemeWellFormed(ls: seq<string>)
    requires WellFormed(ls)
    ensures WellFormed(WithTheme(ls))
  {
    ConstantLines();
    MapLinesWellFormed(ls);
    WithPluginsShape(ls);
    if !HasTheme(ls) {
      WellFormedCons(ThemeLine, MapLines(ls));
    }
  }

  /** The first line is followed by the inserted plugins line, so it has its
      newline: it is the inserted theme line, or it is followed by more. */
  lemma {:induction false} FirstLineTerminated(ls: seq<string>)
    requires WellFormed(ls) && !HasPlugins(ls)
    ensures |WithTheme(ls)| > 0 && Terminated(WithTheme(ls)[0])
  {
    ConstantLines();
    WithThemeWellFormed(ls);
    WithPluginsShape(ls);
    var m := MapLines(ls);
    if HasTheme(ls) && |m| == 1 {
      var i :| 0 <= i < |ls| && IsThemeLine(ls[i]);
      assert i == 0;
      assert m[0] == ThemeLine;
    }
  }

  /** Inserting a line that has its newline after a first line that has one
      keeps the shape. */
  lemma {:induction false} InsertSecondWellFormed(w: seq<string>, x: string)
    requires WellFormed(w) && |w| > 0 && Terminated(w[0])
    requires IsLine(x) && Terminated(x)
    ensures WellFormed([w[0], x] + w[1..])
  {
    WellFormedTail(w);
    WellFormedCons(x, w[1..]);
    WellFormedCons(w[0], [x] + w[1..]);
    assert [w[0]] + ([x] + w[1..]) == [w[0], x] + w[1..];
  }

  lemma {:induction false} WithPluginsWellFormed(ls: seq<string>)
    requires WellFormed(ls)
    ensures WellFormed(WithPlugins(ls))
  {
    WithThemeWellFormed(ls);
    WithPluginsShape(ls);
    if !HasPlugins(ls) {
      ConstantLines();
      FirstLineTerminated(ls);
      InsertSecondWellFormed(WithTheme(ls), PluginsLine);
    }
  }

  /** The line the file ends with after the source line was appended. */
  const SourceTail: string := SourceDirective + "\n"

  lemma {:induction false} SourceTailLine()
    ensures IsLine(SourceTail) && Terminated(SourceTail)
    ensures !IsSettingLine(SourceTail) && !IsSettingLine("\n")
    ensures AnySource([SourceTail])
    ensures SourceLine == "\n" + SourceTail
  {
    assert '\n' !in SourceDirective;
    assert SourceTail[..|SourceTail| - 1] == SourceDirective;
    assert SourceTail[0] == 's';
    assert SourceTail[..|SourceDirective|] == SourceDirective;
    assert OccursAt(SourceTail, SourceDirective, 0);
    assert [SourceTail][0] == SourceTail;
  }

  /** A patched document followed by more canonical lines, one of which
      sources Oh My Zsh, is still patched. */
  lemma {:induction false} PatchedExtend(w: seq<string>, extra: seq<string>)
    requires SettingsCanonical(w) && HasTheme(w) && HasPlugins(w)
    requires SettingsCanonical(extra) && AnySource(extra)
    ensures Patched(w + extra)
  {
    var r := w + extra;
    var i :| 0 <= i < |w| && IsThemeLine(w[i]);
    assert r[i] == w[i];
    var j :| 0 <= j < |w| && IsPluginsLine(w[j]);
    assert r[j] == w[j];
    var k :| 0 <= k < |extra| && Contains(extra[k], SourceDirective);
    assert r[|w| + k] == extra[k];
    forall n | 0 <= n < |r| ensures Canonical(r[n]) == r[n] {
      if n >= |w| {
        assert r[n] == extra[n - |w|];
      }
    }
  }

  /** The facts about the lines before the source line that the re-read
      needs. */
  lemma {:induction false} WithPluginsPatchedPrefix(ls: seq<string>)
    ensures SettingsCanonical(WithPlugins(ls))
    ensures HasTheme(WithPlugins(ls)) && HasPlugins(WithPlugins(ls))
  {
    var w := WithPlugins(ls);
    WithPluginsFacts(ls);
    CountPositive(ls, ThemePrefix);
    CountPositive(ls, PluginsPrefix);
    CountPositive(w, ThemePrefix);
    CountPositive(w, PluginsPrefix);
  }

  /** The source line on its own reads back as a blank line and the
      directive line. */
  lemma {:induction false} SplitSourceLine()
    ensures SplitLines(SourceLine) == ["\n", SourceTail]
  {
    SourceTailLine();
    SplitLinesCons("\n", SourceTail);
    SplitOneLine(SourceTail);
  }

  /** Lines read back after the kept part of the document: the patcher
      leaves them alone and they source Oh My Zsh. */
  lemma {:induction false} TailPatched(first: string)
    requires Canonical(first) == first
    ensures SettingsCanonical([first, SourceTail]) && AnySource([first, SourceTail])
  {
    SourceTailLine();
    assert SettingsCanonical([first, SourceTail]) by {
      CanonicalKind(SourceTail);
    }
    assert AnySource([first, SourceTail]) by {
      assert [first, SourceTail] == [first] + [SourceTail];
      AnySourceCons(first, [SourceTail]);
    }
  }

  /** The source line appended after a line that has its newline reads
      back as a blank line and the directive line. */
  lemma {:induction false} ResplitAfterTerminated(w: seq<string>)
    requires WellFormed(w) && |w| > 0 && Terminated(w[|w| - 1])
    requires SettingsCanonical(w) && HasTheme(w) && HasPlugins(w)
    ensures Patched(SplitLines(JoinLines(w + [SourceLine])))
  {
    JoinLinesAppend(w, SourceLine);
    assert TerminatedLines(w);
    SplitLinesAfter(w, SourceLine);
    SplitSourceLine();
    assert Canonical("\n") == "\n";
    TailPatched("\n");
    PatchedExtend(w, ["\n", SourceTail]);
  }

  /** A line without newline followed by the source line reads back as that
      line ended, then the directive line. */
  lemma {:induction false} SplitEndedSourceLine(last: string)
    requires IsLine(last) && !Terminated(last)
    ensures SplitLines(last + SourceLine) == [last + "\n", SourceTail]
  {
    SourceTailLine();
    var ended := last + "\n";
    assert last + SourceLine == ended + SourceTail;
    assert IsLine(ended) by {
      assert ended[..|ended| - 1] == last;
    }
    SplitLinesCons(ended, SourceTail);
    SplitOneLine(SourceTail);
  }

  /** Ending a line the patcher keeps with a newline keeps it a line the
      patcher keeps. */
  lemma {:induction false} EndedStaysKept(last: string)
    requires !IsSettingLine(last)
    ensures Canonical(last + "\n") == last + "\n"
  {
    StartsWithExtended(last, '\n', ThemePrefix);
    StartsWithExtended(last, '\n', PluginsPrefix);
    PlainPrefixes();
  }

  /** Appending the source line after a last line without newline reads
      back as the earlier lines, that line ended, and the directive line. */
  lemma {:induction false} ResplitUnterminated(w: seq<string>)
    requires WellFormed(w) && |w| > 0 && !Terminated(w[|w| - 1])
    ensures SplitLines(JoinLines(w + [SourceLine]))
         == w[..|w| - 1] + [w[|w| - 1] + "\n", SourceTail]
  {
    var init, last := w[..|w| - 1], w[|w| - 1];
    JoinLinesLast(w, SourceLine);
    WellFormedInit(w);
    SplitLinesAfter(init, last + SourceLine);
    SplitEndedSourceLine(last);
  }

  /** The source line appended after a last line without newline ends that
      line, which stays a line the patcher keeps, and the directive line
      follows. */
  lemma {:induction false} ResplitAfterUnterminated(w: seq<string>)
    requires WellFormed(w) && |w| > 0 && !Terminated(w[|w| - 1])
    requires SettingsCanonical(w) && HasTheme(w) && HasPlugins(w)
    ensures SplitLines(JoinLines(w + [SourceLine]))
         == w[..|w| - 1] + [w[|w| - 1] + "\n", SourceTail]
    ensures Patched(SplitLines(JoinLines(w + [SourceLine])))
  {
    var last := w[|w| - 1];
    ResplitUnterminated(w);
    assert !IsSettingLine(last) by {
      ConstantLines();
      assert Canonical(last) == last;
    }
    EndedStaysKept(last);
    TailPatched(last + "\n");
    PrefixKeepsSettings(w);
    PatchedExtend(w[..|w| - 1], [last + "\n", SourceTail]);
  }

  /** Setting lines have their newline, so a last line without one is not
      needed for the settings to be present. */
  lemma {:induction false} PrefixKeepsSettings(w: seq<string>)
    requires |w| > 0 && !Terminated(w[|w| - 1])
    requires SettingsCanonical(w) && HasTheme(w) && HasPlugins(w)
    ensures HasTheme(w[..|w| - 1]) && HasPlugins(w[..|w| - 1]) && SettingsCanonical(w[..|w| - 1])
  {
    ConstantLines();
    var init := w[..|w| - 1];
    var i :| 0 <= i < |w| && IsThemeLine(w[i]);
    assert w[i] == ThemeLine by {
      assert Canonical(w[i]) == w[i];
    }
    assert i < |init| && init[i] == w[i];
    var j :| 0 <= j < |w| && IsPluginsLine(w[j]);
    assert w[j] == PluginsLine by {
      assert Canonical(w[j]) == w[j];
      SettingKindsDisjoint(w[j]);
    }
    assert j < |init| && init[j] == w[j];
    forall n | 0 <= n < |init| ensures Canonical(init[n]) == init[n] {
      assert init[n] == w[n];
    }
  }

  /** Reading back what one pass wrote gives a document the patcher leaves
      alone. */
  lemma {:induction false} ResplitPatched(ls: seq<string>)
    requires WellFormed(ls)
    ensures Patched(SplitLines(JoinLines(Patch(ls))))
  {
    var w := WithPlugins(ls);
    WithPluginsWellFormed(ls);
    PatchAppendsSourceLine(ls);
    WithPluginsPatchedPrefix(ls);
    if !NeedsSourceLine(ls) {
      SplitJoin(w);
      PatchIsPatched(ls);
    } else if Terminated(w[|w| - 1]) {
      ResplitAfterTerminated(w);
    } else {
      ResplitAfterUnterminated(w);
    }
  }

  /** Running the patcher on the file it has just written leaves the file as
      it is. */
  lemma {:induction false} RewriteIdempotent(file: Option<string>)
    ensures Rewrite(Some(Rewrite(file))) == Rewrite(file)
  {
    var ls := ReadLines(file);
    var text := Rewrite(file);
    ReadLinesShape(file);
    PatchNoCarriageReturn(ls);
    JoinLinesChar(Patch(ls), '\r');
    assert Normalize(text) == text;
    ResplitPatched(ls);
    var again := SplitLines(text);
    PatchFixedPoints(again);
    JoinSplit(text);
  }

  /** A missing file and an empty file are patched alike, into the theme
      line, the plugins line and the source line. */
  lemma {:induction false} RewriteMissing()
    ensures Rewrite(None) == Rewrite(Some(""))
    ensures Rewrite(None) == ThemeLine + PluginsLine + SourceLine
  {
    assert ReadLines(None) == [] && ReadLines(Some("")) == [] by {
      assert Normalize("") == "";
    }
    PatchEmpty();
    JoinThree(ThemeLine, PluginsLine, SourceLine);
  }

  /** Three elements are written one after another. */
  lemma {:induction false} JoinThree(a: string, b: string, c: string)
    ensures JoinLines([a, b, c]) == a + b + c
  {
    var ls := [a, b, c];
    assert ls[1..] == [b, c] && ls[1..][1..] == [c] && ls[1..][1..][1..] == [];
    assert JoinLines([c]) == c + "" == c;
    assert JoinLines([b, c]) == b + c;
    assert a + (b + c) == a + b + c;
  }

  /** `set_zsh_theme_and_plugins` on the file's contents (`None` when it does
      not exist): read the lines, patch them, and return the text written.
      A second run on that text writes the same text. */
  method SetThemeAndPluginsInFile(file: Option<string>) returns (written: string)
    ensures written == Rewrite(file)
    ensures Rewrite(Some(written)) == written
  {
    var lines := SetThemeAndPlugins(ReadLines(file));
    written := JoinLines(lines);
    RewriteIdempotent(file);
  }
}

=== FILE: zshrc_properties.dfy ===
/** What the `.zshrc` patcher promises about the lines it writes back, proved
    of the model in module Zshrc. */
module ZshrcProperties {
  import opened Text
  import opened Zshrc

  /* ---- Bookkeeping over concatenations ---- */

  lemma {:induction false} OthersConcat(a: seq<string>, b: seq<string>)
    ensures Others(a + b) == Others(a) + Others(b)
  {
    if |a| > 0 {
      assert (a + b)[0] == a[0];
      assert (a + b)[1..] == a[1..] + b;
      OthersConcat(a[1..], b);
    } else {
      assert a + b == b;
    }
  }

  lemma {:induction false} CountConcat(a: seq<string>, b: seq<string>, prefix: string)
    ensures CountPrefix(a + b, prefix) == CountPrefix(a, prefix) + CountPrefix(b, prefix)
  {
    if |a| > 0 {
      assert (a + b)[0] == a[0];
      assert (a + b)[1..] == a[1..] + b;
      CountConcat(a[1..], b, prefix);
    } else {
      assert a + b == b;
    }
  }

  /** A line counts towards a prefix's total exactly when some line has it. */
  lemma {:induction false} CountPositive(ls: seq<string>, prefix: string)
    ensures CountPrefix(ls, prefix) > 0 <==> exists i :: 0 <= i < |ls| && StartsWith(ls[i], prefix)
  {
    if |ls| > 0 {
      CountPositive(ls[1..], prefix);
      if exists i :: 0 <= i < |ls[1..]| && StartsWith(ls[1..][i], prefix) {
        var i :| 0 <= i < |ls[1..]| && StartsWith(ls[1..][i], prefix);
        assert StartsWith(ls[i + 1], prefix);
      }
      if exists i :: 0 <= i < |ls| && StartsWith(ls[i], prefix) {
        var i :| 0 <= i < |ls| && StartsWith(ls[i], prefix);
        if i > 0 {
          assert StartsWith(ls[1..][i - 1], prefix);
        }
      }
    }
  }

  lemma {:induction false} AnySourceCons(line: string, rest: seq<string>)
    ensures AnySource([line] + rest) <==> Contains(line, SourceDirective) || AnySource(rest)
  {
    var ls := [line] + rest;
    assert ls[0] == line;
    if AnySource(rest) {
      var i :| 0 <= i < |rest| && Contains(rest[i], SourceDirective);
      assert ls[i + 1] == rest[i];
    }
    if AnySource(ls) {
      var i :| 0 <= i < |ls| && Contains(ls[i], SourceDirective);
      if i > 0 {
        assert ls[i] == rest[i - 1];
      }
    }
  }

  /** No setting line mentions the directive. */
  predicate SettingsUnsourced(ls: seq<string>) {
    forall i :: 0 <= i < |ls| && IsSettingLine(ls[i]) ==> !Contains(ls[i], SourceDirective)
  }

  /** Once setting lines cannot contain the directive, only the lines kept
      verbatim decide whether the document sources Oh My Zsh. */
  lemma {:induction false} AnySourceOthers(ls: seq<string>)
    requires SettingsUnsourced(ls)
    ensures AnySource(ls) <==> AnySource(Others(ls))
  {
    if |ls| > 0 {
      var rest := ls[1..];
      assert ls == [ls[0]] + rest;
      assert SettingsUnsourced(rest) by {
        forall i | 0 <= i < |rest| && IsSettingLine(rest[i])
          ensures !Contains(rest[i], SourceDirective)
        {
          assert rest[i] == ls[i + 1];
        }
      }
      AnySourceOthers(rest);
      AnySourceCons(ls[0], rest);
      if IsSettingLine(ls[0]) {
        assert !Contains(ls[0], SourceDirective);
        assert Others(ls) == Others(rest);
      } else {
        assert Others(ls) == [ls[0]] + Others(rest);
        AnySourceCons(ls[0], Others(rest));
      }
    }
  }

  /* ---- The read loop ---- */

  /** Every line is replaced by its canonical form. */
  lemma {:induction false} MapLinesCanonical(ls: seq<string>)
    ensures forall i :: 0 <= i < |ls| ==> MapLines(ls)[i] == Canonical(ls[i])
  {
    forall i | 0 <= i < |ls|
      ensures MapLines(ls)[i] == Canonical(ls[i])
    {
      CanonicalKind(ls[i]);
    }
  }

  lemma {:induction false} MapLinesCons(ls: seq<string>)
    requires |ls| > 0
    ensures MapLines(ls) == [Canonical(ls[0])] + MapLines(ls[1..])
  {
    var m, rest := MapLines(ls), MapLines(ls[1..]);
    forall i | 0 <= i < |ls| ensures m[i] == ([Canonical(ls[0])] + rest)[i] {
      if i > 0 {
        assert rest[i - 1] == Canonical(ls[1..][i - 1]);
      }
    }
  }

  /** The lines the read loop keeps verbatim are exactly the input's. */
  lemma {:induction false} OthersMapLines(ls: seq<string>)
    ensures Others(MapLines(ls)) == Others(ls)
  {
    if |ls| > 0 {
      var m := MapLines(ls);
      MapLinesCons(ls);
      OthersConcat([Canonical(ls[0])], MapLines(ls[1..]));
      OthersMapLines(ls[1..]);
      CanonicalKind(ls[0]);
      assert Others([Canonical(ls[0])]) == (if IsSettingLine(ls[0]) then [] else [ls[0]]);
    }
  }

  /** The read loop keeps the number of theme lines and of plugins lines. */
  lemma {:induction false} CountMapLines(ls: seq<string>, prefix: string)
    requires prefix == ThemePrefix || prefix == PluginsPrefix
    ensures CountPrefix(MapLines(ls), prefix) == CountPrefix(ls, prefix)
  {
    if |ls| > 0 {
      MapLinesCons(ls);
      CountMapLines(ls[1..], prefix);
      CanonicalKind(ls[0]);
    }
  }

  /* ---- Inserting a canonical setting line ---- */

  /** `list.insert` within bounds is cutting and gluing. */
  lemma {:induction false} PyInsertSplit(s: seq<string>, k: nat, x: string)
    requires k <= |s|
    ensures PyInsert(s, k, x) == s[..k] + ([x] + s[k..])
    ensures s == s[..k] + s[k..]
  {
  }

  lemma {:induction false} OthersDrop(before: seq<string>, after: seq<string>, x: string)
    requires IsSettingLine(x)
    ensures Others(before + ([x] + after)) == Others(before + after)
  {
    assert Others([x]) == [];
    OthersConcat(before, [x] + after);
    OthersConcat([x], after);
    OthersConcat(before, after);
  }

  lemma {:induction false} CountInserted(before: seq<string>, after: seq<string>, x: string, prefix: string)
    ensures CountPrefix(before + ([x] + after), prefix)
      == CountPrefix(before + after, prefix) + (if StartsWith(x, prefix) then 1 else 0)
  {
    CountConcat(before, [x] + after, prefix);
    CountConcat([x], after, prefix);
    CountConcat(before, after, prefix);
  }

  /** Inserting a setting line leaves the kept lines alone. */
  lemma {:induction false} InsertOthers(s: seq<string>, k: nat, x: string)
    requires k <= |s|
    requires IsSettingLine(x)
    ensures Others(PyInsert(s, k, x)) == Others(s)
  {
    PyInsertSplit(s, k, x);
    OthersDrop(s[..k], s[k..], x);
  }

  /** Inserting a line adds one to the count of its prefix only. */
  lemma {:induction false} InsertCount(s: seq<string>, k: nat, x: string, prefix: string)
    requires k <= |s|
    ensures CountPrefix(PyInsert(s, k, x), prefix)
      == CountPrefix(s, prefix) + (if StartsWith(x, prefix) then 1 else 0)
  {
    PyInsertSplit(s, k, x);
    CountInserted(s[..k], s[k..], x, prefix);
  }

  /** Every setting line is already in canonical form. */
  predicate SettingsCanonical(ls: seq<string>) {
    forall i :: 0 <= i < |ls| ==> Canonical(ls[i]) == ls[i]
  }

  lemma {:induction false} InsertCanonical(s: seq<string>, k: nat, x: string)
    requires SettingsCanonical(s) && Canonical(x) == x
    ensures SettingsCanonical(PyInsert(s, k, x))
  {
    var r := PyInsert(s, k, x);
    var j := if k <= |s| then k else |s|;
    forall i | 0 <= i < |r|
      ensures Canonical(r[i]) == r[i]
    {
      if i < j {
        assert r[i] == r[..j][i] == s[..j][i];
      } else if i > j {
        assert r[i] == r[j + 1..][i - j - 1] == s[j..][i - j - 1];
      }
    }
  }

  /* ---- The patcher, step by step ---- */

  /** After the inserts: the kept lines, the counts and the canonical form of
      every setting line. */
  lemma {:induction false} WithPluginsFacts(ls: seq<string>)
    ensures Others(WithPlugins(ls)) == Others(ls)
    ensures CountPrefix(WithPlugins(ls), ThemePrefix)
      == CountPrefix(ls, ThemePrefix) + (if HasTheme(ls) then 0 else 1)
    ensures CountPrefix(WithPlugins(ls), PluginsPrefix)
      == CountPrefix(ls, PluginsPrefix) + (if HasPlugins(ls) then 0 else 1)
    ensures SettingsCanonical(WithPlugins(ls))
    ensures |WithPlugins(ls)|
      == |ls| + (if HasTheme(ls) then 0 else 1) + (if HasPlugins(ls) then 0 else 1)
  {
    ConstantLines();
    CanonicalKind(ThemeLine);
    CanonicalKind(PluginsLine);
    var m := MapLines(ls);
    OthersMapLines(ls);
    CountMapLines(ls, ThemePrefix);
    CountMapLines(ls, PluginsPrefix);
    MapLinesCanonical(ls);
    assert SettingsCanonical(m) by {
      forall i | 0 <= i < |m| ensures Canonical(m[i]) == m[i] {
        CanonicalKind(ls[i]);
      }
    }
    var w := WithTheme(ls);
    if !HasTheme(ls) {
      InsertOthers(m, 0, ThemeLine);
      InsertCount(m, 0, ThemeLine, ThemePrefix);
      InsertCount(m, 0, ThemeLine, PluginsPrefix);
      InsertCanonical(m, 0, ThemeLine);
    }
    if !HasPlugins(ls) {
      InsertOthers(w, 1, PluginsLine);
      InsertCount(w, 1, PluginsLine, ThemePrefix);
      InsertCount(w, 1, PluginsLine, PluginsPrefix);
      InsertCanonical(w, 1, PluginsLine);
    }
  }

  /** The setting lines after the inserts do not mention the directive, so
      the lines kept verbatim decide whether the source line is appended. */
  lemma {:induction false} WithPluginsSourced(ls: seq<string>)
    ensures AnySource(WithPlugins(ls)) <==> !NeedsSourceLine(ls)
  {
    var w := WithPlugins(ls);
    WithPluginsFacts(ls);
    SourceDirectiveLines();
    assert SettingsUnsourced(w) by {
      forall i | 0 <= i < |w| && IsSettingLine(w[i])
        ensures !Contains(w[i], SourceDirective)
      {
        assert Canonical(w[i]) == w[i];
      }
    }
    AnySourceOthers(w);
  }

  /* ---- The properties of one pass ---- */

  /** The source line is appended exactly when no kept line already sources
      Oh My Zsh, and nothing else is appended. */
  lemma {:induction false} PatchAppendsSourceLine(ls: seq<string>)
    ensures Patch(ls) == WithPlugins(ls) + (if NeedsSourceLine(ls) then [SourceLine] else [])
    ensures AnySource(Patch(ls))
  {
    WithPluginsSourced(ls);
    SourceDirectiveLines();
    var w := WithPlugins(ls);
    if NeedsSourceLine(ls) {
      assert Patch(ls)[|w|] == SourceLine;
    }
  }

  /** Lines that set neither the theme nor the plugin list are written back
      verbatim and in their order, followed by the source line when it was
      missing. */
  lemma {:induction false} PatchKeepsOtherLines(ls: seq<string>)
    ensures Others(Patch(ls)) == Others(ls) + (if NeedsSourceLine(ls) then [SourceLine] else [])
  {
    PatchAppendsSourceLine(ls);
    WithPluginsFacts(ls);
    ConstantLines();
    OthersConcat(WithPlugins(ls), if NeedsSourceLine(ls) then [SourceLine] else []);
    assert Others([SourceLine]) == [SourceLine];
  }

  /** Every theme line written is the canonical one, and so is every plugins
      line; there are as many of them as were read, or exactly one when none
      was read. Several theme lines read stay several canonical lines. */
  lemma {:induction false} PatchSettingLines(ls: seq<string>)
    ensures CountPrefix(Patch(ls), ThemePrefix)
      == if HasTheme(ls) then CountPrefix(ls, ThemePrefix) else 1
    ensures CountPrefix(Patch(ls), PluginsPrefix)
      == if HasPlugins(ls) then CountPrefix(ls, PluginsPrefix) else 1
    ensures forall j :: 0 <= j < |Patch(ls)| && IsThemeLine(Patch(ls)[j]) ==> Patch(ls)[j] == ThemeLine
    ensures forall j :: 0 <= j < |Patch(ls)| && IsPluginsLine(Patch(ls)[j]) ==> Patch(ls)[j] == PluginsLine
  {
    var out := Patch(ls);
    var tail := if NeedsSourceLine(ls) then [SourceLine] else [];
    PatchAppendsSourceLine(ls);
    WithPluginsFacts(ls);
    ConstantLines();
    CountConcat(WithPlugins(ls), tail, ThemePrefix);
    CountConcat(WithPlugins(ls), tail, PluginsPrefix);
    CountPositive(ls, ThemePrefix);
    CountPositive(ls, PluginsPrefix);
    assert CountPrefix(tail, ThemePrefix) == 0 && CountPrefix(tail, PluginsPrefix) == 0;
    forall j | 0 <= j < |out| && IsSettingLine(out[j])
      ensures IsThemeLine(out[j]) ==> out[j] == ThemeLine
      ensures IsPluginsLine(out[j]) ==> out[j] == PluginsLine
    {
      assert j < |WithPlugins(ls)|;
      assert out[j] == WithPlugins(ls)[j];
      assert Canonical(out[j]) == out[j];
      SettingKindsDisjoint(out[j]);
    }
  }

  /** Each missing setting and a missing source line add one line each;
      nothing is ever removed. */
  lemma {:induction false} PatchLength(ls: seq<string>)
    ensures |Patch(ls)| == |ls|
      + (if HasTheme(ls) then 0 else 1)
      + (if HasPlugins(ls) then 0 else 1)
      + (if NeedsSourceLine(ls) then 1 else 0)
  {
    PatchAppendsSourceLine(ls);
    WithPluginsFacts(ls);
  }

  lemma {:induction false} PyInsertAtOne(s: seq<string>, x: string)
    requires 1 <= |s|
    ensures PyInsert(s, 1, x) == [s[0], x] + s[1..]
  {
    assert s[..1] == [s[0]];
  }

  /** The two inserts as list surgery on the rewritten lines. */
  lemma {:induction false} WithPluginsShape(ls: seq<string>)
    ensures HasTheme(ls) ==> |ls| > 0 && WithTheme(ls) == MapLines(ls)
    ensures !HasTheme(ls) ==> WithTheme(ls) == [ThemeLine] + MapLines(ls)
    ensures HasPlugins(ls) ==> WithPlugins(ls) == WithTheme(ls)
    ensures !HasPlugins(ls) ==>
      WithPlugins(ls) == [WithTheme(ls)[0], PluginsLine] + WithTheme(ls)[1..]
  {
    var w := WithTheme(ls);
    if !HasPlugins(ls) {
      PyInsertAtOne(w, PluginsLine);
    }
  }

  lemma {:induction false} PatchStartsWithInserts(ls: seq<string>)
    ensures Patch(ls)[..|WithPlugins(ls)|] == WithPlugins(ls)
  {
    PatchAppendsSourceLine(ls);
  }

  /** Where the inserted lines go: a missing theme line becomes element 0, a
      missing plugins line element 1 (right after the first line, wherever
      the theme line is), and the rewritten input follows in order. */
  lemma {:induction false} PatchLayout(ls: seq<string>)
    ensures HasTheme(ls) ==> |ls| > 0
    ensures !HasTheme(ls) && !HasPlugins(ls) ==>
      Patch(ls)[..|ls| + 2] == [ThemeLine, PluginsLine] + MapLines(ls)
    ensures !HasTheme(ls) && HasPlugins(ls) ==>
      Patch(ls)[..|ls| + 1] == [ThemeLine] + MapLines(ls)
    ensures HasTheme(ls) && !HasPlugins(ls) ==>
      Patch(ls)[..|ls| + 1] == [MapLines(ls)[0], PluginsLine] + MapLines(ls)[1..]
    ensures HasTheme(ls) && HasPlugins(ls) ==>
      Patch(ls)[..|ls|] == MapLines(ls)
  {
    WithPluginsShape(ls);
    PatchStartsWithInserts(ls);
    var m := MapLines(ls);
    var w := WithPlugins(ls);
    if !HasTheme(ls) && !HasPlugins(ls) {
      assert WithTheme(ls)[1..] == m;
      assert w == [ThemeLine, PluginsLine] + m;
    }
  }

  /** A missing file or an empty one becomes exactly the theme line, the
      plugins line and the source line. */
  lemma {:induction false} PatchEmpty()
    ensures Patch([]) == [ThemeLine, PluginsLine, SourceLine]
  {
    PatchAppendsSourceLine([]);
    PatchLayout([]);
    assert Others([]) == [];
  }

  /** When the file starts with an ordinary line and sets the theme further
      down, the plugins line still goes to index 1: after that first line and
      before every theme line, which each move down by one. */
  lemma {:induction false} PatchThemeFoundLater(ls: seq<string>)
    requires |ls| > 0 && !IsSettingLine(ls[0]) && HasTheme(ls) && !HasPlugins(ls)
    ensures Patch(ls)[0] == ls[0] && Patch(ls)[1] == PluginsLine
    ensures forall j :: 0 <= j < |ls| && IsThemeLine(ls[j]) ==>
      2 <= j + 1 < |Patch(ls)| && Patch(ls)[j + 1] == ThemeLine
  {
    var m := MapLines(ls);
    PatchLayout(ls);
    PatchLength(ls);
    var p := Patch(ls);
    assert p[..|ls| + 1] == [m[0], PluginsLine] + m[1..];
    forall j | 0 <= j < |ls| && IsThemeLine(ls[j])
      ensures 2 <= j + 1 < |p| && p[j + 1] == ThemeLine
    {
      assert j != 0;
      assert p[..|ls| + 1][j + 1] == m[j];
    }
  }

  /* ---- Idempotence ---- */

  /** A document the patcher leaves alone: settings canonical, both present,
      Oh My Zsh sourced. */
  predicate Patched(ls: seq<string>) {
    SettingsCanonical(ls) && HasTheme(ls) && HasPlugins(ls) && AnySource(ls)
  }

  /** Every pass produces such a document. */
  lemma {:induction false} PatchIsPatched(ls: seq<string>)
    ensures Patched(Patch(ls))
  {
    var out := Patch(ls);
    var w := WithPlugins(ls);
    PatchAppendsSourceLine(ls);
    WithPluginsFacts(ls);
    ConstantLines();
    CanonicalKind(SourceLine);
    PatchSettingLines(ls);
    CountPositive(ls, ThemePrefix);
    CountPositive(ls, PluginsPrefix);
    CountPositive(out, ThemePrefix);
    CountPositive(out, PluginsPrefix);
    assert HasTheme(out);
    assert HasPlugins(out);
    assert SettingsCanonical(out) by {
      forall i | 0 <= i < |out| ensures Canonical(out[i]) == out[i] {
        if i < |w| {
          assert out[i] == w[i];
        } else {
          assert out[i] == SourceLine;
        }
      }
    }
  }

  /** The patcher changes a document exactly when it is not yet patched. */
  lemma {:induction false} PatchFixedPoints(ls: seq<string>)
    ensures Patch(ls) == ls <==> Patched(ls)
  {
    if Patched(ls) {
      MapLinesCanonical(ls);
      assert MapLines(ls) == ls;
      assert WithPlugins(ls) == ls;
    }
    PatchIsPatched(ls);
  }

  /** Patching twice gives what patching once gives. */
  lemma {:induction false} PatchIdempotent(ls: seq<string>)
    ensures Patch(Patch(ls)) == Patch(ls)
  {
    PatchIsPatched(ls);
    PatchFixedPoints(Patch(ls));
  }
}
